=== FILE: README.md ===
# Session and credential lifecycle of an Express/Mongoose auth service

This project models, in Dafny, the core of a small Node.js authentication
service: the `Session` collection and its active filter, the session
controllers (`createSession`, `desactivateSession`), and the auth controllers
(`protect`, `signup`, `signin`, `signout`, `forgotPassword`, `resetPassword`,
`updatePassword`). Each request is one sequential run of lookups and
single-record updates, so every handler is a pure transition
`(state, request, now) -> (state', reply)` over two append-only collections:

- `common.dfy` — ids, `Option`, `Result`.
- `http.dfy` — replies reduced to status and error text; `NoReply` for a
  handler whose promise rejects before anything is sent.
- `header.dfy` — JavaScript's `split(" ")`, its inverse `join(" ")`, and the
  token field both controllers read from the `Authorization` header.
- `session_model.dfy` — session records, the schema defaults, and the
  find-family queries, all built on one function that applies the
  `{ active: { $ne: false } }` hook.
- `user_model.dfy` — the user fields the handlers touch and the three user
  queries they issue.
- `collaborators.dfy` — `jwt.verify`, SHA-256 and the `User` model's methods
  and validators as uninterpreted function values (`Oracles`).
- `session_controllers.dfy`, `auth_controllers.dfy` — the handlers.
- `service.dfy` — the routes, the process serving a sequence of requests
  (`Run`), and the invariants it keeps.
- `lifecycle.dfy` — properties across several requests.

The clock is the `now` parameter. Whether the store accepts writes during a
request is the `writeOk` parameter. The random bytes of a reset token are the
`randomness` parameter. Every save of a user goes through the pre-save hook
of the user model, an uninterpreted function of the stored document, the
assigned document and the clock; it is what may hash the password and stamp
`passwordChangedAt`. A request whose promise rejects unhandled is marked
`fatal`. server.js answers such a rejection by closing the server and exiting,
so `Run` stops at the first fatal step.

Behaviours of the code worth knowing:

- The default `createdAt` and `expiredAt` are values computed once, when the
  schema is defined. They are not computed per insert as `createdAt + 90 days`.
- The active filter checks only `active`, never `expiredAt`.
- `protect` never looks at the session store, so a revoked session's token
  still passes.
- `protect` answers its three 401s with three different messages.
- A second `signout` with the same token answers 400 "Invalid session". It is
  not a success.
- `resetPassword` clears the reset fields only when the save succeeds. A save
  the validators refuse leaves them in place.
- `createSendToken` does not await `signToken`, so the 200 is sent before the
  session insert completes. A failed insert makes `createSession`'s catch write
  a second response. That write throws, so the request also ends in an
  unhandled rejection.

## Model

| member | source | states |
|---|---|---|
| Header.Split | controllers/sessionControllers.js:6 | `split(" ")` yields one more field than the header has spaces, and no field contains a space |
| Header.JoinSplit | controllers/sessionControllers.js:6 | joining the fields with single spaces gives back the header, so splitting loses nothing |
| Header.SplitJoin | controllers/sessionControllers.js:6 | splitting the join of space-free fields gives back exactly those fields, the inverse direction of `JoinSplit` |
| Header.TokenField | controllers/sessionControllers.js:6-9 | a token taken from the header is never empty (falsy `""` counts as missing) and has no space, and the header had a separator |
| Header.TokenFieldOfFields | controllers/sessionControllers.js:6-9 | for any header built of space-free fields, the token is the second field, or absent when that field is empty |
| Header.BearerToken | controllers/authControllers.js:32-37 | `protect` takes a token only from a present header that starts with "Bearer", and then it is the header's second field |
| Header.BearerRoundTrip | controllers/authControllers.js:32-37 | the header `Bearer <token>` yields exactly `<token>` for both controllers |
| Header.NoSeparatorNoToken | controllers/authControllers.js:36-44 | a header without a space ("Bearer", "Bearerabc") carries no token |
| SessionModel.DefaultsFillMissingFields | models/sessionModel.js:3-20 | a new record is active unless `false` is supplied, and its missing dates are the two clock readings taken when the schema was defined, with `expiredAt` 7776000000 ms (90 days) after the second |
| SessionModel.Find | models/sessionModel.js:22-25 | `find` returns, in insertion order (the model's choice for natural order), exactly the ids of the active records matching the filter |
| SessionModel.FindOne | models/sessionModel.js:22-25 | `findOne` returns the first active match, or none when no active record matches |
| SessionModel.FindById | models/sessionModel.js:22-25 | `findById` returns the record exactly when it exists and is active |
| SessionModel.FindByIdAndUpdate | models/sessionModel.js:22-25 | the update applies only to a visible record and returns its pre-update document; every other record, and every revoked one, is unchanged |
| SessionModel.RevokedIsHiddenFromEveryFind | models/sessionModel.js:22-25 | no find-family query, whatever its filter or update, returns or touches a record whose `active` is false |
| SessionModel.RevokedIsFinal | models/sessionModel.js:22-25 | a revoked record's only possible successor is itself |
| SessionModel.EvolvesTransitive | models/sessionModel.js:22-25 | "grows, and changes records only by revocation" composes over consecutive requests |
| UserModel.FindOne | controllers/authControllers.js:94 | `User.findOne` returns the first user, in insertion order, matching the filter, or none when none matches |
| UserModel.FindByEmail | controllers/authControllers.js:94-96 | the user lookup by email returns the first user with that email, or none when none has it |
| UserModel.FindByResetToken | controllers/authControllers.js:145-148 | a user is selected only if its stored reset hash equals the given hash and its expiry is strictly after `now`; none is selected when no user qualifies |
| UserModel.ResetExpiryIsStrict | controllers/authControllers.js:147 | at the expiry instant and later a reset token matches nothing (`$gt`, not `$gte`) |
| UserModel.ClearedResetMatchesNothing | controllers/authControllers.js:159-160 | a user whose reset fields were cleared matches no reset token at any time |
| SessionControllers.GetSessionId | controllers/sessionControllers.js:5-12 | the session id comes from the header's second field, verified; a missing header, a missing or empty token and a rejected token are three distinct throws |
| SessionControllers.GetSessionIdOfBearer | controllers/sessionControllers.js:5-12 | for `Bearer <token>`, the session id is the one in the token's verified claims |
| SessionControllers.CreateSession | controllers/sessionControllers.js:14-25 | on success exactly one record is appended, active, with that owner and the schema defaults, and findable by the returned id; on a failed write nothing changes, no session is returned and a 500 is attempted |
| SessionControllers.DeactivateSession | controllers/sessionControllers.js:27-51 | a visible session named by the token gets `active := false` and `expiredAt := now`, and nothing else changes (200); an unknown or revoked id gives 400 "Invalid session" with the store unchanged; a missing header, missing token, rejected token or failed write gives 500 with the store unchanged |
| SessionControllers.DeactivateTwice | controllers/sessionControllers.js:30-39 | a second revocation with the same token gives 400 and leaves the store exactly as the first left it |
| AuthControllers.Protect | controllers/authControllers.js:29-69 | access is granted iff a Bearer token is present, verifies, names an existing user, and that user's password did not change after `iat`; the first failing check decides the reply (401 messages, or an unhandled rejection for a bad token) |
| AuthControllers.ProtectIgnoresSessions | controllers/authControllers.js:29-69 | `protect` decides the same way whatever the sessions collection holds |
| AuthControllers.GrantedRequestNamesItsSession | controllers/authControllers.js:29-69 | after `protect` grants, `getSessionId` reads the session id of the same claims `protect` checked |
| AuthControllers.CreateSendToken | controllers/authControllers.js:7-27 | the reply is always 200 with the user's name and email; the users are unchanged; one session with the defaults is appended if the write succeeds, and otherwise the request ends in an unhandled rejection |
| AuthControllers.Signup | controllers/authControllers.js:71-89 | an accepted signup appends exactly the applicant as the pre-save hook stored it, and exactly one new session, the active record with the schema defaults owned by that user, and answers 200 with the stored name and email; a failed write, a failing validator or an email already stored gives 400 with no change |
| AuthControllers.Signin | controllers/authControllers.js:91-112 | correct credentials add exactly `NewSession` for the first user with that email and answer 200, and the request ends normally unless that insert fails, which is an unhandled rejection that adds nothing; otherwise the reply is 401 "User not found" and nothing changes |
| AuthControllers.Signout | controllers/authControllers.js:114-116 | signout never changes users; when the token yields a session id and the store answers, it replies 200 exactly when that session was active, and then exactly that session gets `active := false` and `expiredAt := now`; any other reply leaves the state unchanged |
| AuthControllers.ForgotPassword | controllers/authControllers.js:118-136 | an unknown email gives 404 with no user modified; otherwise the first user with that email is replaced by what `createPasswordResetToken` left, saved through the pre-save hook, and its plaintext is returned; a failed save changes nothing and rejects unhandled; sessions never change |
| AuthControllers.ResetPassword | controllers/authControllers.js:138-166 | with no user whose hash matches and whose expiry is strictly in the future: 400 and no change; on a match and an accepted save: the user with the new password and both reset fields cleared, passed through the pre-save hook at `now`, replaces the match, one session is added, 200; a refused save changes nothing |
| AuthControllers.UpdatePassword | controllers/authControllers.js:168-188 | a wrong current password gives 401 and changes nothing; otherwise the user with the new password, passed through the pre-save hook at `now`, is stored, and the revocation of the caller's session supplies the sessions and the reply; a refused save changes nothing |
| Service.Handle | routes/authRoutes.js:4-14 | no route removes a user or a session, and sessions change only by revocation |
| Service.Run | routes/authRoutes.js:4-14 | over any sequence of requests up to the first unhandled rejection, sessions only grow and change only by revocation, and users only grow |
| Service.RevokedStaysHidden | models/sessionModel.js:22-25 | once revoked, a session is never changed again and never returned by any find-family query, for any later requests |
| Service.SignupPreservesWf | controllers/authControllers.js:71-89 | signup keeps emails unique, reset fields paired and every session owned, provided the pre-save hook keeps the email and reset fields |
| Service.SigninPreservesWf | controllers/authControllers.js:91-112 | signin keeps every session owned by an existing user |
| Service.SignoutPreservesWf | controllers/authControllers.js:114-116 | signout keeps the invariants |
| Service.ForgotPreservesWf | controllers/authControllers.js:128-130 | issuing a reset token keeps the invariants, provided `createPasswordResetToken` sets both reset fields together and the hook keeps them |
| Service.ResetPreservesWf | controllers/authControllers.js:157-161 | a reset clears both reset fields together, provided the hook keeps them |
| Service.UpdatePreservesWf | controllers/authControllers.js:181-187 | a password update keeps the invariants, provided the hook keeps the email and reset fields |
| Service.HandlePreservesWf | routes/authRoutes.js:4-14 | every route keeps emails unique, reset fields paired and every session owned by an existing user, provided the uninterpreted hooks keep the email and the pairing of the reset fields |
| Service.RunPreservesWf | routes/authRoutes.js:4-14 | the invariants hold after any sequence of requests, under the same proviso |
| Lifecycle.SignoutTwice | controllers/sessionControllers.js:30-39 | signing out twice with the same token, the second time at any moment at which the token verifies to the same claims, gives 200, then 400 "Invalid session", and the second request leaves the state identical to after the first |
| Lifecycle.RevokedTokenStillPasses | controllers/authControllers.js:29-69 | after a successful signout the session is revoked and hidden, yet `protect` still grants that token and decides on it exactly as before, at any time |
| Lifecycle.SigninFailsUniformly | controllers/authControllers.js:97-110 | an unknown email and a wrong password give identical replies and identical, unchanged state |
| Lifecycle.SigninIgnoresClock | models/sessionModel.js:8-15 | the same signin at two different times has the same effect: session dates are per-process constants |
| Lifecycle.LateSessionsAreBornExpired | models/sessionModel.js:12-15 | once the clock passes the default expiry, new sessions are created already past their `expiredAt`, and the active filter still returns them |
| Lifecycle.ResetIsSingleUse | controllers/authControllers.js:157-161 | provided the hook keeps cleared reset fields cleared: after a successful reset the selected user matches the token at no time and no other user changed; unless another user holds the same hash, the replay is 400 with no change |
| Lifecycle.ForgotThenReset | controllers/authControllers.js:118-166 | a reset with the plaintext `forgotPassword` returned, before the expiry, is not rejected as invalid, provided the issued document holds the plaintext's SHA-256 and that expiry and the hook keeps them |
| Lifecycle.ForgotUnknownEmail | controllers/authControllers.js:120-126 | an unknown email through the route gives 404 and leaves the state unchanged |
| Lifecycle.UpdatePasswordRevokesCaller | controllers/authControllers.js:181-187 | with the right current password and an active session: the new password is saved through the hook at `now`, exactly the caller's session is revoked at `now`, and the reply is 200 |
| Lifecycle.UpdatePasswordOnRevokedSession | controllers/authControllers.js:181-187 | with an already revoked session, the new password is still saved through the hook and the reply is 400 "Invalid session" |
| Lifecycle.UpdatePasswordWrongCurrent | controllers/authControllers.js:173-178 | a wrong current password gives 401 and changes neither the password nor any session |
| Lifecycle.ProtectOfBearerHeader | controllers/authControllers.js:29-69 | for `Bearer <token>`, access is granted iff the token verifies, names an existing user, and that user's password did not change after `iat` |
| Lifecycle.SignupCreatesUserAndSession | controllers/authControllers.js:71-89 | a successful signup appends exactly one user, the applicant as the hook stored it, and one visible session owned by it |

## Left out

- Bootstrap, middleware and logging (app.js, most of server.js): configuration and I/O. Only the shutdown on an unhandled rejection is kept, as the end of `Run`.
- Result order: MongoDB returns the documents of an unsorted `find` or `findOne` in natural order, which it does not specify. The model fixes it as insertion order (lowest id first). This decides an outcome only when several documents match: two users with the same email (excluded by the unique-index assumption below) or two users holding the same reset hash (which `Lifecycle.ResetIsSingleUse` states as a separate case). Signin, forgotPassword and resetPassword pick the first such user.
- models/userModel.js is not part of this model. Its validators, the pre-save hook (which may hash the password and stamp `passwordChangedAt`), `correctPassword`, `changedPasswordAfter` and `createPasswordResetToken` are uninterpreted functions. The handlers' contracts assume nothing about them.
- Two facts about that unmodelled code are assumed. (1) The email unique index: signup rejects an email already stored, compared by exact equality; lower-casing of emails is not modelled. (2) The invariant lemmas and the reset lemmas take as hypotheses that the pre-save hook keeps the email and the reset fields (`SaveHookKeepsKeys`; the single-use lemma needs only `SaveHookKeepsResetCleared`, that a cleared reset token stays cleared) and that `createPasswordResetToken` keeps the email and sets both reset fields together (`ResetIssueKeepsKeys`).
- Mongoose runs validation before the pre-save hook, so validators see the document as assigned; the hook's output is not validated again.
- Reads of the users collection never fail. In the code a rejected `User.findOne` in signin is caught and answered 401 with the driver's message, and in `protect`, `forgotPassword`, `resetPassword` and `updatePassword` a rejected read is an unhandled rejection; none of this is modelled.
- One clock reading per request: `jwt.verify` in `protect`, `jwt.verify` in `getSessionId` and `expiredAt: Date.now()` in `desactivateSession` all see the same `now`. `GrantedRequestNamesItsSession` relies on this.
- Every body field is a string. An absent `email` makes signin and forgotPassword query `{ email: undefined }`, whose matching is Mongoose's and is not modelled.
- JWT signing and the token value: `jwt.sign`, the `expiresIn` passed as an absolute timestamp, and the unresolved promise sent as `token`. Only the session-creation side effect of `signToken` is modelled.
- `jwt.verify` and SHA-256 are uninterpreted, with no injectivity assumed. `verify` takes `now`, so a token expiry is the verifier's concern.
- Response bodies are reduced to the status, the handler's literal error text, or `Thrown` for an exception's message. Stack traces are dropped.
- Mongo query matching beyond the filters these handlers use. The active filter is modelled as `active == true`; a record with no `active` field cannot arise here, because the schema default always sets it.
- A malformed session id (a cast error in `findByIdAndUpdate`) is not modelled separately. It is one of the 500 outcomes covered by `writeOk == false`.
- Store availability is one flag per request: its writes all succeed or the first one fails. A request whose first write fails never reaches a second one. Three outcomes where a first write succeeds and a later one fails are therefore not modelled:
  - `signup` (controllers/authControllers.js:74-81): the user is stored and the 200 has been sent, then `Session.create` fails and its rejection goes unhandled, so the stored user remains with no session.
  - `resetPassword` (controllers/authControllers.js:161-165): the same sequence after `user.save()`, so the new password and the cleared reset fields are stored, the 200 has been sent, and the rejection goes unhandled.
  - `updatePassword` (controllers/authControllers.js:183-187): the new password is saved, then `findByIdAndUpdate` fails; the reply is 500 and the caller's session stays active.
- Concurrency: requests are served one at a time. Interleavings of the un-awaited `signToken` and `desactivateSession` promises with other requests are not modelled.

=== FILE: auth_controllers.dfy ===
/** controllers/authControllers.js: the route gate `protect` and the handlers that
    create, check and change credentials. Each handler is a pure transition
    `(state, request, now) -> (state', reply)`. */
module AuthControllers {
  import opened Common
  import opened Http
  import opened Header
  import opened SessionModel
  import UserModel
  import opened Collaborators
  import opened SessionControllers

  type User = UserModel.User

  /** Both collections. */
  datatype State = State(users: UserModel.Users, sessions: Store)

  /** A handler's effect: the new state, what the client receives, and whether the
      request ends in an unhandled promise rejection. server.js answers one of those by
      closing the server and exiting the process. */
  datatype Step = Step(state: State, reply: Reply, fatal: bool)

  /** The claims `protect` decodes: the "Bearer" token, verified. */
  function Decoded(oracles: Oracles, authorization: Option<string>, now: int): Option<Claims>
  {
    match BearerToken(authorization)
    case None => None
    case Some(token) => oracles.verify(token, now)
  }

  /** What `protect` decides: a 401 or a rejection, or `next()` with `req.user` set. */
  datatype Gate = Denied(reply: Reply, fatal: bool) | Granted(userId: UserId, claims: Claims)

  /** `protect`: an ordered chain of checks, the first failing one decides the
      reply. The session named in the token is never looked at. */
  function Protect(oracles: Oracles, st: State, authorization: Option<string>, now: int): (g: Gate)
    ensures g.Granted? <==>
      && BearerToken(authorization).Some?
      && Decoded(oracles, authorization, now).Some?
      && Decoded(oracles, authorization, now).value.id < |st.users|
      && !oracles.changedPasswordAfter(st.users[Decoded(oracles, authorization, now).value.id], Decoded(oracles, authorization, now).value.iat)
    ensures g.Granted? ==> g.claims == Decoded(oracles, authorization, now).value && g.userId == g.claims.id
    ensures BearerToken(authorization).None? ==> g == Denied(Failed(401, Text(NotLoggedIn)), false)
    ensures BearerToken(authorization).Some? && Decoded(oracles, authorization, now).None? ==> g == Denied(NoReply, true)
    ensures Decoded(oracles, authorization, now).Some? && Decoded(oracles, authorization, now).value.id >= |st.users| ==>
      g == Denied(Failed(401, Text(UserGone)), false)
    ensures var d := Decoded(oracles, authorization, now);
      (d.Some? && d.value.id < |st.users| && oracles.changedPasswordAfter(st.users[d.value.id], d.value.iat)) ==>
        g == Denied(Failed(401, Text(PasswordChanged)), false)
  {
    match BearerToken(authorization)
    case None => Denied(Failed(401, Text(NotLoggedIn)), false)
    case Some(token) =>
      match oracles.verify(token, now)
      case None => Denied(NoReply, true)
      case Some(claims) =>
        if claims.id >= |st.users| then Denied(Failed(401, Text(UserGone)), false)
        else if oracles.changedPasswordAfter(st.users[claims.id], claims.iat) then Denied(Failed(401, Text(PasswordChanged)), false)
        else Granted(claims.id, claims)
  }

  /** `protect` reads the users only: any sessions collection gives the same decision. */
  lemma ProtectIgnoresSessions(oracles: Oracles, st: State, sessions: Store, authorization: Option<string>, now: int)
    ensures Protect(oracles, st.(sessions := sessions), authorization, now) == Protect(oracles, st, authorization, now)
  {
  }

  /** A request `protect` let through carries, for `getSessionId`, the session id of
      the very claims `protect` checked. */
  lemma GrantedRequestNamesItsSession(oracles: Oracles, st: State, authorization: Option<string>, now: int)
    requires Protect(oracles, st, authorization, now).Granted?
    ensures GetSessionId(oracles, authorization, now) == Success(Protect(oracles, st, authorization, now).claims.sessionId)
  {
  }

  /** `createSendToken(user, 200, res)` after `signToken` started: the 200 goes out at
      once, since `signToken` is not awaited; the session insert completes later. A
      failed insert makes `createSession`'s catch write a second response, which
      throws and leaves `signToken`'s promise rejected and unhandled. */
  function CreateSendToken(schema: Schema, st: State, userId: UserId, writeOk: bool): (r: Step)
    requires userId < |st.users|
    ensures r.state.users == st.users
    ensures r.reply == LoggedIn(st.users[userId].name, st.users[userId].email)
    ensures r.fatal <==> !writeOk
    ensures writeOk ==>
      && |r.state.sessions| == |st.sessions| + 1
      && r.state.sessions[..|st.sessions|] == st.sessions
      && r.state.sessions[|st.sessions|] == Session(userId, schema.defaultCreatedAt, schema.defaultExpiredAt, true)
    ensures !writeOk ==> r.state.sessions == st.sessions
    ensures Evolves(st.sessions, r.state.sessions)
  {
    var created := CreateSession(schema, st.sessions, userId, writeOk);
    Step(st.(sessions := created.store), LoggedIn(st.users[userId].name, st.users[userId].email), created.session.None?)
  }

  /** The user `User.create` builds from the signup body, before the save hook. */
  function Applicant(name: string, email: string, password: string): User
  {
    UserModel.User(name, email, password, None, None, None)
  }

  /** The document `User.create` stores: the applicant, through the pre-save hook. */
  function Enrolled(oracles: Oracles, name: string, email: string, password: string, now: int): User
  {
    oracles.saveHook(None, Applicant(name, email, password), now)
  }

  /** `signup`: create the user, then log them in. `User.create` rejects a taken
      email (the unique index on the stored email), a failing validator, or a failed
      write; its `catch` answers 400 with the thrown message. */
  function Signup(oracles: Oracles, schema: Schema, st: State, name: string, email: string, password: string,
                  passwordConfirm: string, now: int, writeOk: bool): (r: Step)
    ensures var saved := Enrolled(oracles, name, email, password, now);
      var accepted := writeOk && oracles.validates(Applicant(name, email, password), passwordConfirm)
                      && UserModel.FindByEmail(st.users, saved.email).None?;
      && (accepted ==>
        && r.state.users == st.users + [saved]
        && r.state.sessions == st.sessions + [NewSession(schema, |st.users|)]
        && r.reply == LoggedIn(saved.name, saved.email)
        && !r.fatal)
      && (!accepted ==> r == Step(st, Failed(400, Thrown), false))
    ensures Evolves(st.sessions, r.state.sessions)
  {
    var applicant := Applicant(name, email, password);
    var saved := Enrolled(oracles, name, email, password, now);
    if !writeOk || !oracles.validates(applicant, passwordConfirm) || UserModel.FindByEmail(st.users, saved.email).Some? then
      Step(st, Failed(400, Thrown), false)
    else
      CreateSendToken(schema, st.(users := st.users + [saved]), |st.users|, writeOk)
  }

  /** Whether the signin credentials identify a user: the first user with that email,
      whose stored password the candidate matches. */
  predicate Authenticates(oracles: Oracles, users: UserModel.Users, email: string, password: string)
  {
    var found := UserModel.FindByEmail(users, email);
    found.Some? && oracles.correctPassword(password, users[found.value].password)
  }

  /** `signin`: an unknown email and a wrong password raise the same error, answered
      by the same 401. */
  function Signin(oracles: Oracles, schema: Schema, st: State, email: string, password: string, writeOk: bool): (r: Step)
    ensures Authenticates(oracles, st.users, email, password) ==>
      var uid := UserModel.FindByEmail(st.users, email).value;
      && r.state.users == st.users
      && r.reply == LoggedIn(st.users[uid].name, email)
      && (writeOk ==> r.state.sessions == st.sessions + [NewSession(schema, uid)])
      && (!writeOk ==> r.state.sessions == st.sessions)
      && (r.fatal <==> !writeOk)
    ensures !Authenticates(oracles, st.users, email, password) ==> r == Step(st, Failed(401, Text(UserNotFound)), false)
    ensures Evolves(st.sessions, r.state.sessions)
  {
    var found := UserModel.FindByEmail(st.users, email);
    if found.None? || !oracles.correctPassword(password, st.users[found.value].password) then
      Step(st, Failed(401, Text(UserNotFound)), false)
    else
      var r := CreateSendToken(schema, st, found.value, writeOk);
      assert writeOk ==> r.state.sessions == st.sessions + [NewSession(schema, found.value)] by {
        if writeOk {
          assert r.state.sessions == r.state.sessions[..|st.sessions|] + [r.state.sessions[|st.sessions|]];
        }
      }
      r
  }

  /** `signout`: `desactivateSession` on the caller's request. */
  function Signout(oracles: Oracles, st: State, authorization: Option<string>, now: int, writeOk: bool): (r: Step)
    ensures r.state.users == st.users && !r.fatal
    ensures GetSessionId(oracles, authorization, now).Success? && writeOk ==>
      var id := GetSessionId(oracles, authorization, now).value;
      (r.reply == Done <==> id < |st.sessions| && st.sessions[id].active)
    ensures GetSessionId(oracles, authorization, now).Success? && writeOk && r.reply == Done ==>
      var id := GetSessionId(oracles, authorization, now).value;
      r.state.sessions == st.sessions[id := st.sessions[id].(active := false, expiredAt := now)]
    ensures r.reply != Done ==> r.state == st
    ensures Evolves(st.sessions, r.state.sessions)
  {
    var revoked := DeactivateSession(oracles, st.sessions, authorization, now, writeOk);
    Step(st.(sessions := revoked.store), revoked.reply, false)
  }

  /** The user `forgotPassword` stores: the document `createPasswordResetToken` left,
      through the pre-save hook. */
  function WithResetIssue(oracles: Oracles, u: User, randomness: nat, now: int): User
  {
    oracles.saveHook(Some(u), oracles.createPasswordResetToken(u, randomness, now).user, now)
  }

  /** `forgotPassword`: 404 for an unknown email; otherwise store the document with a
      fresh reset token (saved without validation) and hand back its plaintext. The
      handler has no `catch`, so a failed save is an unhandled rejection. */
  function ForgotPassword(oracles: Oracles, st: State, email: string, randomness: nat, now: int, writeOk: bool): (r: Step)
    ensures UserModel.FindByEmail(st.users, email).None? ==> r == Step(st, Failed(404, Text(NoUserWithEmail)), false)
    ensures UserModel.FindByEmail(st.users, email).Some? ==>
      var uid := UserModel.FindByEmail(st.users, email).value;
      var issue := oracles.createPasswordResetToken(st.users[uid], randomness, now);
      if writeOk then
        r == Step(st.(users := st.users[uid := WithResetIssue(oracles, st.users[uid], randomness, now)]), ResetIssued(issue.plainToken), false)
      else
        r == Step(st, NoReply, true)
    ensures r.state.sessions == st.sessions && |r.state.users| == |st.users|
  {
    match UserModel.FindByEmail(st.users, email)
    case None => Step(st, Failed(404, Text(NoUserWithEmail)), false)
    case Some(uid) =>
      var issue := oracles.createPasswordResetToken(st.users[uid], randomness, now);
      if !writeOk then Step(st, NoReply, true)
      else Step(st.(users := st.users[uid := WithResetIssue(oracles, st.users[uid], randomness, now)]), ResetIssued(issue.plainToken), false)
  }

  /** The document `resetPassword` assigns: the new password, both reset fields cleared. */
  function WithResetPassword(u: User, password: string): User
  {
    u.(password := password, passwordResetToken := None, passwordResetExpires := None)
  }

  /** `resetPassword`: the token's SHA-256 must equal a stored hash whose expiry is
      strictly in the future. On a match the new password is assigned, the reset
      fields cleared, the document saved through the pre-save hook and the user logged
      in; a save the validators refuse rejects unhandled and persists nothing. */
  function ResetPassword(oracles: Oracles, schema: Schema, st: State, resetToken: string, password: string,
                         passwordConfirm: string, now: int, writeOk: bool): (r: Step)
    ensures var hash := oracles.sha256Hex(resetToken);
      var found := UserModel.FindByResetToken(st.users, hash, now);
      && (found.None? ==> r == Step(st, Failed(400, Text(ResetTokenInvalid)), false))
      && (found.Some? && (!writeOk || !oracles.validates(WithResetPassword(st.users[found.value], password), passwordConfirm)) ==>
            r == Step(st, NoReply, true))
      && (found.Some? && writeOk && oracles.validates(WithResetPassword(st.users[found.value], password), passwordConfirm) ==>
            var u := st.users[found.value];
            var saved := oracles.saveHook(Some(u), WithResetPassword(u, password), now);
            && r.state.users == st.users[found.value := saved]
            && r.state.sessions == st.sessions + [NewSession(schema, found.value)]
            && r.reply == LoggedIn(saved.name, saved.email)
            && !r.fatal)
    ensures Evolves(st.sessions, r.state.sessions)
  {
    var hash := oracles.sha256Hex(resetToken);
    match UserModel.FindByResetToken(st.users, hash, now)
    case None => Step(st, Failed(400, Text(ResetTokenInvalid)), false)
    case Some(uid) =>
      var cleared := WithResetPassword(st.users[uid], password);
      if !writeOk || !oracles.validates(cleared, passwordConfirm) then Step(st, NoReply, true)
      else
        var saved := oracles.saveHook(Some(st.users[uid]), cleared, now);
        var r := CreateSendToken(schema, st.(users := st.users[uid := saved]), uid, writeOk);
        assert r.state.sessions == r.state.sessions[..|st.sessions|] + [r.state.sessions[|st.sessions|]];
        r
  }

  /** The document `updatePassword` stores: the new password, through the pre-save hook. */
  function WithNewPassword(oracles: Oracles, u: User, newPassword: string, now: int): User
  {
    oracles.saveHook(Some(u), u.(password := newPassword), now)
  }

  /** `updatePassword` for the user `protect` admitted: a wrong current password is a
      401 and changes nothing; otherwise the new password is saved through the
      pre-save hook and then the caller's session is revoked, whose reply is the
      handler's reply. */
  function UpdatePassword(oracles: Oracles, st: State, userId: UserId, authorization: Option<string>,
                          currentPassword: string, newPassword: string, confirmPassword: string,
                          now: int, writeOk: bool): (r: Step)
    ensures userId >= |st.users| ==> r == Step(st, NoReply, true)
    ensures userId < |st.users| && !oracles.correctPassword(currentPassword, st.users[userId].password) ==>
      r == Step(st, Failed(401, Text(WrongCurrentPassword)), false)
    ensures userId < |st.users| && oracles.correctPassword(currentPassword, st.users[userId].password) ==>
      if writeOk && oracles.validates(st.users[userId].(password := newPassword), confirmPassword) then
        var revoked := DeactivateSession(oracles, st.sessions, authorization, now, writeOk);
        r == Step(State(st.users[userId := WithNewPassword(oracles, st.users[userId], newPassword, now)], revoked.store), revoked.reply, false)
      else
        r == Step(st, NoReply, true)
    ensures Evolves(st.sessions, r.state.sessions) && |r.state.users| == |st.users|
  {
    if userId >= |st.users| then Step(st, NoReply, true)
    else if !oracles.correctPassword(currentPassword, st.users[userId].password) then
      Step(st, Failed(401, Text(WrongCurrentPassword)), false)
    else if !writeOk || !oracles.validates(st.users[userId].(password := newPassword), confirmPassword) then
      Step(st, NoReply, true)
    else
      var revoked := DeactivateSession(oracles, st.sessions, authorization, now, writeOk);
      Step(State(st.users[userId := WithNewPassword(oracles, st.users[userId], newPassword, now)], revoked.store), revoked.reply, false)
  }
}

=== FILE: collaborators.dfy ===
/** The code the handlers call but this model does not contain, as uninterpreted
    functions: `jwt.verify` with the server secret, SHA-256, and the methods,
    validators and hooks of models/userModel.js. The handlers assume no property of
    them; the two predicates at the end name what some lemmas take as hypotheses. */
module Collaborators {
  import opened Common
  import opened UserModel

  /** The payload of a verified token: `{ id, sessionId }` plus the issue time `iat`. */
  datatype Claims = Claims(id: UserId, sessionId: SessionId, iat: int)

  /** What `createPasswordResetToken` leaves behind: the plaintext it returns and the
      user document as the method left it (before the save). */
  datatype ResetIssue = ResetIssue(plainToken: string, user: User)

  datatype Oracles = Oracles(
    /** `promisify(jwt.verify)(token, secret)` at time `now`; `None` when it rejects */
    verify: (string, int) -> Option<Claims>,
    /** `crypto.createHash("sha256").update(s).digest("hex")` */
    sha256Hex: string -> string,
    /** `user.correctPassword(candidate, stored)` */
    correctPassword: (string, string) -> bool,
    /** `user.changedPasswordAfter(iat)` */
    changedPasswordAfter: (User, int) -> bool,
    /** `user.createPasswordResetToken()` given the random bytes it draws and the clock */
    createPasswordResetToken: (User, nat, int) -> ResetIssue,
    /** whether `User.create` / `user.save()` accepts the user with the given `passwordConfirm` */
    validates: (User, string) -> bool,
    /** the pre-save hook: the stored document before the save (`None` for a new one),
        the document as the handler assigned it, and the clock, give the document stored */
    saveHook: (Option<User>, User, int) -> User)

  /** The pre-save hook leaves the email and both reset fields as assigned. Lemmas
      about those fields take this as a hypothesis; the model itself does not. */
  ghost predicate SaveHookKeepsKeys(oracles: Oracles)
  {
    forall prior: Option<User>, u: User, now: int ::
      && oracles.saveHook(prior, u, now).email == u.email
      && oracles.saveHook(prior, u, now).passwordResetToken == u.passwordResetToken
      && oracles.saveHook(prior, u, now).passwordResetExpires == u.passwordResetExpires
  }

  /** The pre-save hook does not bring back a reset token that was cleared; implied
      by `SaveHookKeepsKeys`, and all the single-use lemma needs. */
  ghost predicate SaveHookKeepsResetCleared(oracles: Oracles)
  {
    forall prior: Option<User>, u: User, now: int ::
      u.passwordResetToken.None? ==> oracles.saveHook(prior, u, now).passwordResetToken.None?
  }

  /** `createPasswordResetToken` keeps the email and sets the two reset fields together.
      A hypothesis of the invariant lemmas, like `SaveHookKeepsKeys`. */
  ghost predicate ResetIssueKeepsKeys(oracles: Oracles)
  {
    forall u: User, randomness: nat, now: int ::
      && oracles.createPasswordResetToken(u, randomness, now).user.email == u.email
      && (oracles.createPasswordResetToken(u, randomness, now).user.passwordResetToken.Some?
          <==> oracles.createPasswordResetToken(u, randomness, now).user.passwordResetExpires.Some?)
  }
}

=== FILE: common.dfy ===
/** Identifiers and failure-compatible wrappers shared by every module. */
module Common {

  /** A user's `_id`: the position of the user in the users collection. */
  type UserId = nat

  /** A session's `_id`: the position of the session in the sessions collection. */
  type SessionId = nat

  /** A value that may be absent: a query that matched nothing, a header that was not sent. */
  datatype Option<+T> = None | Some(value: T)

  /** A computation that either yields a value or throws. */
  datatype Result<+T, +E> = Success(value: T) | Failure(error: E)
}

=== FILE: header.dfy ===
/** The `Authorization` header: JavaScript's `split(" ")`, and the token field both
    handlers read from it (controllers/authControllers.js:32-37,
    controllers/sessionControllers.js:6). */
module Header {
  import opened Common

  const Space: char := ' '
  const Bearer: string := "Bearer"

  /** Number of separator characters in `s`. */
  function Spaces(s: string): nat
  {
    if |s| == 0 then 0 else (if s[0] == Space then 1 else 0) + Spaces(s[1..])
  }

  /** `s.split(" ")`: the maximal runs between single spaces, empty runs included. */
  function Split(s: string): (parts: seq<string>)
    ensures |parts| == Spaces(s) + 1
    ensures forall i :: 0 <= i < |parts| ==> Space !in parts[i]
    decreases |s|
  {
    if |s| == 0 then [""]
    else if s[0] == Space then [""] + Split(s[1..])
    else
      var rest := Split(s[1..]);
      [[s[0]] + rest[0]] + rest[1..]
  }

  /** `parts.join(" ")`, the inverse of `Split`. */
  function Join(parts: seq<string>): string
    requires |parts| >= 1
  {
    if |parts| == 1 then parts[0] else parts[0] + [Space] + Join(parts[1..])
  }

  predicate NoSpaces(parts: seq<string>)
  {
    forall i :: 0 <= i < |parts| ==> Space !in parts[i]
  }

  /** Joining the fields of a split gives back the original string. */
  lemma {:induction false} JoinSplit(s: string)
    ensures Join(Split(s)) == s
    decreases |s|
  {
    if |s| == 0 {
    } else if s[0] == Space {
      var rest := Split(s[1..]);
      JoinSplit(s[1..]);
      assert Split(s) == [""] + rest;
      assert ([""] + rest)[1..] == rest;
      assert s == [Space] + s[1..];
    } else {
      var rest := Split(s[1..]);
      JoinSplit(s[1..]);
      var parts := [[s[0]] + rest[0]] + rest[1..];
      assert Split(s) == parts;
      if |rest| == 1 {
        assert Join(parts) == [s[0]] + rest[0];
        assert s == [s[0]] + s[1..];
      } else {
        assert parts[1..] == rest[1..];
        assert Join(rest) == rest[0] + [Space] + Join(rest[1..]);
        assert Join(parts) == [s[0]] + rest[0] + [Space] + Join(rest[1..]);
        assert s == [s[0]] + s[1..];
      }
    }
  }

  /** A prefix without separators is glued onto the first field of what follows it. */
  lemma {:induction false} SplitGluesPrefix(a: string, t: string)
    requires Space !in a
    ensures Split(a + t) == [a + Split(t)[0]] + Split(t)[1..]
    decreases |a|
  {
    if |a| == 0 {
      assert a + t == t;
      assert a + Split(t)[0] == Split(t)[0];
      assert Split(t) == [Split(t)[0]] + Split(t)[1..];
    } else {
      var a' := a[1..];
      var u := a' + t;
      assert a[0] in a;
      assert (a + t)[0] == a[0] && a[0] != Space;
      assert (a + t)[1..] == u;
      SplitGluesPrefix(a', t);
      assert Split(a + t) == [[a[0]] + Split(u)[0]] + Split(u)[1..];
      assert Split(u)[0] == a' + Split(t)[0];
      assert Split(u)[1..] == Split(t)[1..];
      assert a == [a[0]] + a';
      assert [a[0]] + (a' + Split(t)[0]) == a + Split(t)[0];
    }
  }

  /** Splitting the join of separator-free fields gives the fields back. */
  lemma {:induction false} SplitJoin(parts: seq<string>)
    requires |parts| >= 1 && NoSpaces(parts)
    ensures Split(Join(parts)) == parts
    decreases |parts|
  {
    if |parts| == 1 {
      SplitGluesPrefix(parts[0], "");
      assert parts[0] + "" == parts[0];
    } else {
      var tail := Join(parts[1..]);
      SplitJoin(parts[1..]);
      assert Join(parts) == parts[0] + ([Space] + tail);
      SplitGluesPrefix(parts[0], [Space] + tail);
      assert ([Space] + tail)[1..] == tail;
      assert Split([Space] + tail) == [""] + parts[1..];
      assert Split(Join(parts)) == [parts[0] + ""] + parts[1..];
      assert parts[0] + "" == parts[0];
      assert parts == [parts[0]] + parts[1..];
    }
  }

  predicate StartsWith(s: string, prefix: string)
  {
    |prefix| <= |s| && s[..|prefix|] == prefix
  }

  /** `authorization.split(" ")[1]`, absent when that is `undefined` or `""` (both falsy). */
  function TokenField(authorization: string): (token: Option<string>)
    ensures token.Some? ==> token.value != "" && Space !in token.value && Space in authorization
  {
    var parts := Split(authorization);
    if |parts| >= 2 && parts[1] != "" then
      assert Space in authorization by {
        SpacesCount(authorization);
      }
      Some(parts[1])
    else None
  }

  /** A string with a separator in it counts at least one. */
  lemma {:induction false} SpacesCount(s: string)
    ensures Spaces(s) >= 1 <==> Space in s
    decreases |s|
  {
    if |s| > 0 {
      SpacesCount(s[1..]);
      assert Space in s <==> s[0] == Space || Space in s[1..] by {
        assert s == [s[0]] + s[1..];
      }
    }
  }

  /** The token field is the second field of the header, for every way of building one. */
  lemma TokenFieldOfFields(parts: seq<string>)
    requires |parts| >= 2 && NoSpaces(parts)
    ensures TokenField(Join(parts)) == if parts[1] == "" then None else Some(parts[1])
  {
    SplitJoin(parts);
  }

  /** The token `protect` takes: only from a header that starts with "Bearer"
      (controllers/authControllers.js:32-37). */
  function BearerToken(authorization: Option<string>): (token: Option<string>)
    ensures token.Some? <==>
      authorization.Some? && StartsWith(authorization.value, Bearer) && TokenField(authorization.value).Some?
    ensures token.Some? ==> token == TokenField(authorization.value)
  {
    if authorization.Some? && authorization.value != "" && StartsWith(authorization.value, Bearer) then
      TokenField(authorization.value)
    else None
  }

  /** The header a client sends, `Bearer <token>`, yields exactly that token. */
  lemma BearerRoundTrip(token: string)
    requires token != "" && Space !in token
    ensures BearerToken(Some(Bearer + [Space] + token)) == Some(token)
    ensures TokenField(Bearer + [Space] + token) == Some(token)
  {
    var parts := [Bearer, token];
    assert Join(parts) == Bearer + [Space] + token;
    TokenFieldOfFields(parts);
    assert (Bearer + [Space] + token)[..|Bearer|] == Bearer;
  }

  /** A header without any separator carries no token, whatever its scheme. */
  lemma NoSeparatorNoToken(authorization: string)
    requires Space !in authorization
    ensures TokenField(authorization) == None
    ensures BearerToken(Some(authorization)) == None
  {
    SpacesCount(authorization);
  }
}

=== FILE: http.dfy ===
/** What a handler sends back, reduced to the status code and the error text. */
module Http {

  /** The `error` field of a failure body: a literal written by the handler, or
      the message of an exception raised by a library or the runtime. */
  datatype Message = Text(text: string) | Thrown

  datatype Reply =
    /** 200 `{ status: "success", data: {} }` */
    | Done
    /** 200 `{ status: "success", token, data: { name, email } }`; the token value is not modelled */
    | LoggedIn(name: string, email: string)
    /** 200 `{ status: "success", resetToken }` with the plaintext reset token */
    | ResetIssued(resetToken: string)
    /** a failure status with its `error` field */
    | Failed(status: int, error: Message)
    /** the handler's promise rejected before anything was sent */
    | NoReply

  const NotLoggedIn := "You are not logged in! Please log in to get access."
  const UserGone := "The user belonging to this token does no longer exist."
  const PasswordChanged := "User recently changed password! Please log in again."
  const UserNotFound := "User not found"
  const NoUserWithEmail := "There is no user with email address."
  const ResetTokenInvalid := "Token is invalid or has expired"
  const WrongCurrentPassword := "Your current password is wrong."
  const InvalidAuthorization := "Invalid authorization"
  const InvalidSession := "Invalid session"
}

=== FILE: lifecycle.dfy ===
/** Properties of the service across several requests. */
module Lifecycle {
  import opened Common
  import opened Http
  import opened Header
  import opened SessionModel
  import UserModel
  import opened Collaborators
  import opened SessionControllers
  import Auth = AuthControllers
  import opened Service

  /** Signing out twice with the same token, the second time at any later moment at
      which the token still verifies to the same claims: 200, then 400 "Invalid
      session", and the second request changes nothing. */
  lemma SignoutTwice(oracles: Oracles, schema: Schema, st: State, authorization: Option<string>,
                     now: int, later: int, randomness: nat, randomness': nat)
    requires Auth.Decoded(oracles, authorization, later) == Auth.Decoded(oracles, authorization, now)
    requires Handle(oracles, schema, st, Event(Signout(authorization), now, true, randomness)).reply == Done
    ensures var first := Handle(oracles, schema, st, Event(Signout(authorization), now, true, randomness));
      Handle(oracles, schema, first.state, Event(Signout(authorization), later, true, randomness'))
        == Auth.Step(first.state, Failed(400, Text(InvalidSession)), false)
  {
    var first := Handle(oracles, schema, st, Event(Signout(authorization), now, true, randomness));
    assert Auth.Protect(oracles, st, authorization, now).Granted?;
    Auth.GrantedRequestNamesItsSession(oracles, st, authorization, now);
    Auth.ProtectIgnoresSessions(oracles, st, first.state.sessions, authorization, later);
    assert first.state == st.(sessions := first.state.sessions);
    assert GetSessionId(oracles, authorization, later) == GetSessionId(oracles, authorization, now);
    DeactivateTwice(oracles, st.sessions, authorization, now, later);
  }

  /** Revoking a session does not stop its token: after a successful signout,
      `protect` decides on that token exactly as before, at every later time, and at
      the time of the signout it still lets the request through. */
  lemma RevokedTokenStillPasses(oracles: Oracles, schema: Schema, st: State, authorization: Option<string>,
                                now: int, randomness: nat, later: int)
    requires Handle(oracles, schema, st, Event(Signout(authorization), now, true, randomness)).reply == Done
    ensures var first := Handle(oracles, schema, st, Event(Signout(authorization), now, true, randomness));
      var sessionId := Auth.Protect(oracles, st, authorization, now).claims.sessionId;
      && sessionId < |first.state.sessions|
      && !first.state.sessions[sessionId].active
      && FindById(first.state.sessions, sessionId) == None
      && Auth.Protect(oracles, first.state, authorization, now).Granted?
      && Auth.Protect(oracles, first.state, authorization, later) == Auth.Protect(oracles, st, authorization, later)
  {
    var first := Handle(oracles, schema, st, Event(Signout(authorization), now, true, randomness));
    Auth.GrantedRequestNamesItsSession(oracles, st, authorization, now);
    Auth.ProtectIgnoresSessions(oracles, st, first.state.sessions, authorization, now);
    Auth.ProtectIgnoresSessions(oracles, st, first.state.sessions, authorization, later);
    assert first.state == st.(sessions := first.state.sessions);
  }

  /** Signin leaks nothing about which check failed: an unknown email and a wrong
      password give the same reply and leave the same (unchanged) state. */
  lemma SigninFailsUniformly(oracles: Oracles, schema: Schema, st: State, e1: Event, e2: Event)
    requires e1.request.Signin? && e2.request.Signin?
    requires UserModel.FindByEmail(st.users, e1.request.email).None?
    requires var found := UserModel.FindByEmail(st.users, e2.request.email);
      found.Some? && !oracles.correctPassword(e2.request.password, st.users[found.value].password)
    ensures Handle(oracles, schema, st, e1) == Handle(oracles, schema, st, e2)
    ensures Handle(oracles, schema, st, e1) == Auth.Step(st, Failed(401, Text(UserNotFound)), false)
  {
  }

  /** The session defaults are fixed per process: the same signin at two different
      times has the same effect, so the new session's `createdAt` and `expiredAt`
      do not follow the clock. */
  lemma SigninIgnoresClock(oracles: Oracles, schema: Schema, st: State, email: string, password: string,
                           writeOk: bool, now: int, now': int, randomness: nat, randomness': nat)
    ensures Handle(oracles, schema, st, Event(Signin(email, password), now, writeOk, randomness))
         == Handle(oracles, schema, st, Event(Signin(email, password), now', writeOk, randomness'))
  {
  }

  /** Once the process has run past the default expiry, every new session is born
      with an `expiredAt` in the past, yet the active filter still returns it. */
  lemma LateSessionsAreBornExpired(oracles: Oracles, schema: Schema, st: State, email: string, password: string,
                                   now: int, randomness: nat)
    requires Auth.Authenticates(oracles, st.users, email, password)
    requires now >= schema.defaultExpiredAt
    ensures var r := Handle(oracles, schema, st, Event(Signin(email, password), now, true, randomness));
      && |r.state.sessions| == |st.sessions| + 1
      && r.state.sessions[|st.sessions|].expiredAt <= now
      && FindById(r.state.sessions, |st.sessions|).Some?
  {
  }

  /** A successful reset cannot be replayed, provided the pre-save hook keeps the
      cleared reset fields cleared: the user it selected no longer matches
      the token at any time, no other user changed, and if no other user holds the
      same hash, replaying the token is a 400 that changes nothing. */
  lemma ResetIsSingleUse(oracles: Oracles, schema: Schema, st: State, e: Event, replay: Event)
    requires SaveHookKeepsResetCleared(oracles)
    requires e.request.ResetPassword? && replay.request.ResetPassword?
    requires replay.request.resetToken == e.request.resetToken
    requires Handle(oracles, schema, st, e).reply.LoggedIn?
    ensures var hash := oracles.sha256Hex(e.request.resetToken);
      var uid := UserModel.FindByResetToken(st.users, hash, e.now).value;
      var after := Handle(oracles, schema, st, e).state;
      && uid < |after.users|
      && !UserModel.ResetMatches(after.users[uid], hash, replay.now)
      && |after.users| == |st.users|
      && (forall j :: 0 <= j < |st.users| && j != uid ==> after.users[j] == st.users[j])
      && ((forall j :: 0 <= j < |st.users| && j != uid ==> !UserModel.ResetMatches(st.users[j], hash, replay.now)) ==>
            Handle(oracles, schema, after, replay) == Auth.Step(after, Failed(400, Text(ResetTokenInvalid)), false))
  {
    var hash := oracles.sha256Hex(e.request.resetToken);
    var found := UserModel.FindByResetToken(st.users, hash, e.now);
    assert found.Some?;
    var uid := found.value;
    var after := Handle(oracles, schema, st, e).state;
    if forall j :: 0 <= j < |st.users| && j != uid ==> !UserModel.ResetMatches(st.users[j], hash, replay.now) {
      assert forall j :: 0 <= j < |after.users| ==> !UserModel.ResetMatches(after.users[j], hash, replay.now);
    }
  }

  /** `forgotPassword` followed by `resetPassword` with the plaintext it returned,
      before the expiry, is not rejected as invalid — provided the uninterpreted
      `createPasswordResetToken` stored that plaintext's SHA-256 with an expiry after
      the reset, and the pre-save hook kept both fields. */
  lemma ForgotThenReset(oracles: Oracles, schema: Schema, st: State, email: string, e1: Event,
                        password: string, confirm: string, later: int, randomness: nat)
    requires SaveHookKeepsKeys(oracles)
    requires e1.request == ForgotPassword(email) && e1.writeOk
    requires UserModel.FindByEmail(st.users, email).Some?
    requires var issue := oracles.createPasswordResetToken(st.users[UserModel.FindByEmail(st.users, email).value], e1.randomness, e1.now);
      && issue.user.passwordResetToken == Some(oracles.sha256Hex(issue.plainToken))
      && issue.user.passwordResetExpires.Some? && later < issue.user.passwordResetExpires.value
    ensures var first := Handle(oracles, schema, st, e1);
      && first.reply.ResetIssued?
      && UserModel.FindByResetToken(first.state.users, oracles.sha256Hex(first.reply.resetToken), later).Some?
      && Handle(oracles, schema, first.state, Event(ResetPassword(first.reply.resetToken, password, confirm), later, true, randomness)).reply != Failed(400, Text(ResetTokenInvalid))
  {
    var uid := UserModel.FindByEmail(st.users, email).value;
    var first := Handle(oracles, schema, st, e1);
    var issue := oracles.createPasswordResetToken(st.users[uid], e1.randomness, e1.now);
    var saved := Auth.WithResetIssue(oracles, st.users[uid], e1.randomness, e1.now);
    assert saved == oracles.saveHook(Some(st.users[uid]), issue.user, e1.now);
    assert UserModel.ResetMatches(first.state.users[uid], oracles.sha256Hex(issue.plainToken), later);
  }

  /** `forgotPassword` for an unknown email: 404, and no user changes. */
  lemma ForgotUnknownEmail(oracles: Oracles, schema: Schema, st: State, e: Event)
    requires e.request.ForgotPassword? && UserModel.FindByEmail(st.users, e.request.email).None?
    ensures Handle(oracles, schema, st, e) == Auth.Step(st, Failed(404, Text(NoUserWithEmail)), false)
  {
  }

  /** Changing one's password with the right current password saves the new one
      (through the pre-save hook, at the request's clock) and
      revokes the caller's session (the one named in the token); everything else is
      unchanged and the reply is 200. */
  lemma UpdatePasswordRevokesCaller(oracles: Oracles, schema: Schema, st: State, e: Event)
    requires e.request.UpdatePassword? && e.writeOk
    requires Auth.Protect(oracles, st, e.request.authorization, e.now).Granted?
    requires var g := Auth.Protect(oracles, st, e.request.authorization, e.now);
      && oracles.correctPassword(e.request.currentPassword, st.users[g.userId].password)
      && oracles.validates(st.users[g.userId].(password := e.request.newPassword), e.request.confirmPassword)
      && g.claims.sessionId < |st.sessions| && st.sessions[g.claims.sessionId].active
    ensures var g := Auth.Protect(oracles, st, e.request.authorization, e.now);
      var r := Handle(oracles, schema, st, e);
      var sid := g.claims.sessionId;
      && r.reply == Done && !r.fatal
      && r.state.users == st.users[g.userId := Auth.WithNewPassword(oracles, st.users[g.userId], e.request.newPassword, e.now)]
      && r.state.sessions == st.sessions[sid := st.sessions[sid].(active := false, expiredAt := e.now)]
  {
    Auth.GrantedRequestNamesItsSession(oracles, st, e.request.authorization, e.now);
  }

  /** The password change does not depend on the session: with a token whose session
      was already revoked, the new password is saved all the same and the reply is
      the 400 "Invalid session" of the revocation that follows. */
  lemma UpdatePasswordOnRevokedSession(oracles: Oracles, schema: Schema, st: State, e: Event)
    requires e.request.UpdatePassword? && e.writeOk
    requires Auth.Protect(oracles, st, e.request.authorization, e.now).Granted?
    requires var g := Auth.Protect(oracles, st, e.request.authorization, e.now);
      && oracles.correctPassword(e.request.currentPassword, st.users[g.userId].password)
      && oracles.validates(st.users[g.userId].(password := e.request.newPassword), e.request.confirmPassword)
      && g.claims.sessionId < |st.sessions| && !st.sessions[g.claims.sessionId].active
    ensures var g := Auth.Protect(oracles, st, e.request.authorization, e.now);
      var r := Handle(oracles, schema, st, e);
      && r.reply == Failed(400, Text(InvalidSession))
      && r.state.users == st.users[g.userId := Auth.WithNewPassword(oracles, st.users[g.userId], e.request.newPassword, e.now)]
      && r.state.sessions == st.sessions
  {
    Auth.GrantedRequestNamesItsSession(oracles, st, e.request.authorization, e.now);
  }

  /** A wrong current password is a 401 that changes neither the password nor any session. */
  lemma UpdatePasswordWrongCurrent(oracles: Oracles, schema: Schema, st: State, e: Event)
    requires e.request.UpdatePassword?
    requires Auth.Protect(oracles, st, e.request.authorization, e.now).Granted?
    requires var g := Auth.Protect(oracles, st, e.request.authorization, e.now);
      !oracles.correctPassword(e.request.currentPassword, st.users[g.userId].password)
    ensures Handle(oracles, schema, st, e) == Auth.Step(st, Failed(401, Text(WrongCurrentPassword)), false)
  {
  }

  /** A client sending `Bearer <token>` is let through exactly when the token
      verifies, names an existing user, and that user's password did not change after
      the token was issued. */
  lemma ProtectOfBearerHeader(oracles: Oracles, st: State, token: string, now: int)
    requires token != "" && Space !in token
    ensures var g := Auth.Protect(oracles, st, Some(Bearer + [Space] + token), now);
      var claims := oracles.verify(token, now);
      g.Granted? <==>
        claims.Some? && claims.value.id < |st.users| && !oracles.changedPasswordAfter(st.users[claims.value.id], claims.value.iat)
  {
    BearerRoundTrip(token);
  }

  /** Signup creates exactly one user, the applicant as the pre-save hook stored it,
      and one active session owned by that user. */
  lemma SignupCreatesUserAndSession(oracles: Oracles, schema: Schema, st: State, e: Event)
    requires e.request.Signup? && Handle(oracles, schema, st, e).reply.LoggedIn?
    ensures var r := Handle(oracles, schema, st, e);
      && |r.state.users| == |st.users| + 1
      && r.state.users[..|st.users|] == st.users
      && r.state.users[|st.users|] == Auth.Enrolled(oracles, e.request.name, e.request.email, e.request.password, e.now)
      && |r.state.sessions| == |st.sessions| + 1
      && FindById(r.state.sessions, |st.sessions|).Some?
      && r.state.sessions[|st.sessions|].userId == |st.users|
  {
    var r := Handle(oracles, schema, st, e);
    assert r.state.users == st.users + [Auth.Enrolled(oracles, e.request.name, e.request.email, e.request.password, e.now)];
  }
}

=== FILE: service.dfy ===
/** The service as routes/authRoutes.js wires it: one handler chain per route, and the
    process serving requests one after another. `signout` and `updatePassword` run
    only after `protect` called `next()`. */
module Service {
  import opened Common
  import opened SessionModel
  import UserModel
  import opened Collaborators
  import Auth = AuthControllers

  type State = Auth.State
  type Step = Auth.Step

  datatype Request =
    | Signup(name: string, email: string, password: string, passwordConfirm: string)
    | Signin(email: string, password: string)
    | Signout(authorization: Option<string>)
    | ForgotPassword(email: string)
    | ResetPassword(resetToken: string, password: string, passwordConfirm: string)
    | UpdatePassword(authorization: Option<string>, currentPassword: string, newPassword: string, confirmPassword: string)

  /** One request with what the outside world supplies while it runs: the clock,
      whether the store accepts writes, and the random bytes a reset token draws. */
  datatype Event = Event(request: Request, now: int, writeOk: bool, randomness: nat)

  /** A request behind `protect`: a denial answers for the route. */
  function Guarded(oracles: Oracles, st: State, authorization: Option<string>, now: int,
                   handler: UserId -> Step): Step
  {
    match Auth.Protect(oracles, st, authorization, now)
    case Denied(reply, fatal) => Auth.Step(st, reply, fatal)
    case Granted(userId, _) => handler(userId)
  }

  /** The route's handler chain applied to one request. No route removes a user or a
      session, and sessions change only by revocation. */
  function Handle(oracles: Oracles, schema: Schema, st: State, e: Event): (r: Step)
    ensures Evolves(st.sessions, r.state.sessions)
    ensures |st.users| <= |r.state.users|
  {
    match e.request
    case Signup(name, email, password, confirm) =>
      Auth.Signup(oracles, schema, st, name, email, password, confirm, e.now, e.writeOk)
    case Signin(email, password) =>
      Auth.Signin(oracles, schema, st, email, password, e.writeOk)
    case Signout(authorization) =>
      Guarded(oracles, st, authorization, e.now,
              (userId: UserId) => Auth.Signout(oracles, st, authorization, e.now, e.writeOk))
    case ForgotPassword(email) =>
      Auth.ForgotPassword(oracles, st, email, e.randomness, e.now, e.writeOk)
    case ResetPassword(resetToken, password, confirm) =>
      Auth.ResetPassword(oracles, schema, st, resetToken, password, confirm, e.now, e.writeOk)
    case UpdatePassword(authorization, current, newPassword, confirm) =>
      Guarded(oracles, st, authorization, e.now,
              (userId: UserId) => Auth.UpdatePassword(oracles, st, userId, authorization, current, newPassword, confirm, e.now, e.writeOk))
  }

  /** The state after the process served `events` in order; the first unhandled
      rejection ends the process, and the events after it are never served. */
  function Run(oracles: Oracles, schema: Schema, st: State, events: seq<Event>): (final: State)
    ensures Evolves(st.sessions, final.sessions)
    ensures |st.users| <= |final.users|
    decreases |events|
  {
    if |events| == 0 then st
    else
      var r := Handle(oracles, schema, st, events[0]);
      if r.fatal then r.state
      else
        var final := Run(oracles, schema, r.state, events[1..]);
        EvolvesTransitive(st.sessions, r.state.sessions, final.sessions);
        final
  }

  /** Once revoked, a session stays exactly as it is for the rest of the process, and
      no find-family query returns it again. */
  lemma RevokedStaysHidden(oracles: Oracles, schema: Schema, st: State, events: seq<Event>, id: SessionId)
    requires id < |st.sessions| && !st.sessions[id].active
    ensures var final := Run(oracles, schema, st, events);
      && id < |final.sessions|
      && final.sessions[id] == st.sessions[id]
      && FindById(final.sessions, id) == None
      && forall filter :: id !in Find(final.sessions, filter) && FindOne(final.sessions, filter) != Some(id)
  {
    var final := Run(oracles, schema, st, events);
    RevokedIsFinal(st.sessions[id], final.sessions[id]);
    RevokedIsHiddenFromEveryFind(final.sessions, id);
  }

  predicate UniqueEmails(users: UserModel.Users)
  {
    forall i, j :: 0 <= i < j < |users| ==> users[i].email != users[j].email
  }

  /** `passwordResetToken` and `passwordResetExpires` are set together and cleared together. */
  predicate ResetFieldsPaired(users: UserModel.Users)
  {
    forall i :: 0 <= i < |users| ==> (users[i].passwordResetToken.Some? <==> users[i].passwordResetExpires.Some?)
  }

  /** Every session belongs to a user of the collection. */
  predicate SessionsOwned(st: State)
  {
    forall k :: 0 <= k < |st.sessions| ==> st.sessions[k].userId < |st.users|
  }

  predicate Wf(st: State)
  {
    UniqueEmails(st.users) && ResetFieldsPaired(st.users) && SessionsOwned(st)
  }

  /** What the invariant lemmas assume of the uninterpreted user-model code: the pre-save
      hook and `createPasswordResetToken` keep the email, and set or clear the two
      reset fields together. */
  ghost predicate HooksKeepKeys(oracles: Oracles)
  {
    SaveHookKeepsKeys(oracles) && ResetIssueKeepsKeys(oracles)
  }

  /** Sessions owned before stay owned after the collection evolves and the users grow. */
  lemma OwnedAfterEvolves(before: State, after: State)
    requires SessionsOwned(before) && Evolves(before.sessions, after.sessions) && |before.users| <= |after.users|
    requires forall k :: |before.sessions| <= k < |after.sessions| ==> after.sessions[k].userId < |after.users|
    ensures SessionsOwned(after)
  {
    forall k | 0 <= k < |after.sessions|
      ensures after.sessions[k].userId < |after.users|
    {
      if k < |before.sessions| {
        assert Successor(before.sessions[k], after.sessions[k]);
      }
    }
  }

  /** Users whose emails and reset fields are untouched keep both invariants. */
  lemma UsersInvariantsKept(before: UserModel.Users, after: UserModel.Users)
    requires UniqueEmails(before) && ResetFieldsPaired(before) && |after| == |before|
    requires forall i :: 0 <= i < |before| ==> after[i].email == before[i].email
    requires forall i :: 0 <= i < |before| ==>
      (after[i].passwordResetToken.Some? <==> after[i].passwordResetExpires.Some?)
    ensures UniqueEmails(after) && ResetFieldsPaired(after)
  {
  }

  lemma SignupPreservesWf(oracles: Oracles, schema: Schema, st: State, e: Event)
    requires Wf(st) && HooksKeepKeys(oracles) && e.request.Signup?
    ensures Wf(Handle(oracles, schema, st, e).state)
  {
    var r := Handle(oracles, schema, st, e);
    if r.state != st {
      var saved := Auth.Enrolled(oracles, e.request.name, e.request.email, e.request.password, e.now);
      assert r.state.users == st.users + [saved];
      assert forall i :: 0 <= i < |st.users| ==> st.users[i].email != saved.email;
      assert saved.passwordResetToken.None? && saved.passwordResetExpires.None?;
      OwnedAfterEvolves(st, r.state);
    }
  }

  lemma SigninPreservesWf(oracles: Oracles, schema: Schema, st: State, e: Event)
    requires Wf(st) && e.request.Signin?
    ensures Wf(Handle(oracles, schema, st, e).state)
  {
    OwnedAfterEvolves(st, Handle(oracles, schema, st, e).state);
  }

  lemma SignoutPreservesWf(oracles: Oracles, schema: Schema, st: State, e: Event)
    requires Wf(st) && e.request.Signout?
    ensures Wf(Handle(oracles, schema, st, e).state)
  {
    OwnedAfterEvolves(st, Handle(oracles, schema, st, e).state);
  }

  lemma ForgotPreservesWf(oracles: Oracles, schema: Schema, st: State, e: Event)
    requires Wf(st) && HooksKeepKeys(oracles) && e.request.ForgotPassword?
    ensures Wf(Handle(oracles, schema, st, e).state)
  {
    UsersInvariantsKept(st.users, Handle(oracles, schema, st, e).state.users);
  }

  lemma ResetPreservesWf(oracles: Oracles, schema: Schema, st: State, e: Event)
    requires Wf(st) && HooksKeepKeys(oracles) && e.request.ResetPassword?
    ensures Wf(Handle(oracles, schema, st, e).state)
  {
    var r := Handle(oracles, schema, st, e);
    UsersInvariantsKept(st.users, r.state.users);
    OwnedAfterEvolves(st, r.state);
  }

  lemma UpdatePreservesWf(oracles: Oracles, schema: Schema, st: State, e: Event)
    requires Wf(st) && HooksKeepKeys(oracles) && e.request.UpdatePassword?
    ensures Wf(Handle(oracles, schema, st, e).state)
  {
    var r := Handle(oracles, schema, st, e);
    if r.state != st {
      UsersInvariantsKept(st.users, r.state.users);
      OwnedAfterEvolves(st, r.state);
    }
  }

  /** Every route keeps the emails unique, the reset fields paired and every session owned. */
  lemma HandlePreservesWf(oracles: Oracles, schema: Schema, st: State, e: Event)
    requires Wf(st) && HooksKeepKeys(oracles)
    ensures Wf(Handle(oracles, schema, st, e).state)
  {
    match e.request
    case Signup(_, _, _, _) => SignupPreservesWf(oracles, schema, st, e);
    case Signin(_, _) => SigninPreservesWf(oracles, schema, st, e);
    case Signout(_) => SignoutPreservesWf(oracles, schema, st, e);
    case ForgotPassword(_) => ForgotPreservesWf(oracles, schema, st, e);
    case ResetPassword(_, _, _) => ResetPreservesWf(oracles, schema, st, e);
    case UpdatePassword(_, _, _, _) => UpdatePreservesWf(oracles, schema, st, e);
  }

  /** The invariants hold for the whole life of the process. */
  lemma {:induction false} RunPreservesWf(oracles: Oracles, schema: Schema, st: State, events: seq<Event>)
    requires Wf(st) && HooksKeepKeys(oracles)
    ensures Wf(Run(oracles, schema, st, events))
    decreases |events|
  {
    if |events| > 0 {
      HandlePreservesWf(oracles, schema, st, events[0]);
      var r := Handle(oracles, schema, st, events[0]);
      if !r.fatal {
        RunPreservesWf(oracles, schema, r.state, events[1..]);
      }
    }
  }
}

=== FILE: session_controllers.dfy ===
/** controllers/sessionControllers.js: reading the session id from a request,
    creating a session, and soft-revoking the caller's session. */
module SessionControllers {
  import opened Common
  import opened Http
  import opened Header
  import opened SessionModel
  import opened Collaborators

  /** Why `getSessionId` throws. */
  datatype SessionIdError =
    /** no `Authorization` header: `undefined.split` raises a TypeError */
    | HeaderMissing
    /** no second field, or an empty one: "Invalid authorization" */
    | TokenMissing
    /** `jwt.verify` rejected the token */
    | TokenRejected

  /** `getSessionId(req)`: the second space-separated field of the header, verified. */
  function GetSessionId(oracles: Oracles, authorization: Option<string>, now: int): (r: Result<SessionId, SessionIdError>)
    ensures r.Success? <==>
      && authorization.Some?
      && TokenField(authorization.value).Some?
      && oracles.verify(TokenField(authorization.value).value, now).Some?
    ensures r.Success? ==> r.value == oracles.verify(TokenField(authorization.value).value, now).value.sessionId
    ensures r == Failure(HeaderMissing) <==> authorization.None?
    ensures r == Failure(TokenMissing) <==> authorization.Some? && TokenField(authorization.value).None?
  {
    if authorization.None? then Failure(HeaderMissing)
    else match TokenField(authorization.value)
      case None => Failure(TokenMissing)
      case Some(token) =>
        match oracles.verify(token, now)
        case None => Failure(TokenRejected)
        case Some(claims) => Success(claims.sessionId)
  }

  /** The client's `Bearer <token>` header leads to the session named in the token. */
  lemma GetSessionIdOfBearer(oracles: Oracles, token: string, now: int, claims: Claims)
    requires token != "" && Space !in token
    requires oracles.verify(token, now) == Some(claims)
    ensures GetSessionId(oracles, Some(Bearer + [Space] + token), now) == Success(claims.sessionId)
  {
    BearerRoundTrip(token);
  }

  /** The 500 body the `catch` of `desactivateSession` sends for a thrown error. */
  function CaughtReply(e: SessionIdError): Reply
  {
    Failed(500, if e == TokenMissing then Text(InvalidAuthorization) else Thrown)
  }

  /** The store after `createSession`, the new session's id, and the 500 reply the
      `catch` attempts when the write fails. */
  datatype Creation = Creation(store: Store, session: Option<SessionId>, reply: Option<Reply>)

  /** `createSession(userId, res)`; `writeOk` says whether the store accepts the insert. */
  function CreateSession(schema: Schema, store: Store, userId: UserId, writeOk: bool): (c: Creation)
    ensures writeOk ==>
      && |c.store| == |store| + 1
      && c.store[..|store|] == store
      && c.session == Some(|store|)
      && FindById(c.store, |store|) == Some(Session(userId, schema.defaultCreatedAt, schema.defaultExpiredAt, true))
      && c.reply == None
    ensures !writeOk ==> c == Creation(store, None, Some(Failed(500, Thrown)))
    ensures Evolves(store, c.store)
  {
    if writeOk then Creation(store + [NewSession(schema, userId)], Some(|store|), None)
    else Creation(store, None, Some(Failed(500, Thrown)))
  }

  /** The store after `desactivateSession`, and its reply. */
  datatype Revocation = Revocation(store: Store, reply: Reply)

  /** The update `desactivateSession` sends: `{ expiredAt: Date.now(), active: false }`. */
  function RevokeAt(now: int): SessionUpdate
  {
    SessionUpdate(Some(now), Some(false))
  }

  /** `desactivateSession(req, res)`; `writeOk` says whether the store answers the update. */
  function DeactivateSession(oracles: Oracles, store: Store, authorization: Option<string>, now: int, writeOk: bool): (r: Revocation)
    ensures GetSessionId(oracles, authorization, now).Failure? ==>
      r == Revocation(store, CaughtReply(GetSessionId(oracles, authorization, now).error))
    ensures GetSessionId(oracles, authorization, now).Success? && !writeOk ==>
      r == Revocation(store, Failed(500, Thrown))
    ensures GetSessionId(oracles, authorization, now).Success? && writeOk ==>
      var id := GetSessionId(oracles, authorization, now).value;
      if id < |store| && store[id].active then
        && r.reply == Done
        && r.store == store[id := store[id].(active := false, expiredAt := now)]
      else
        r == Revocation(store, Failed(400, Text(InvalidSession)))
    ensures Evolves(store, r.store)
  {
    match GetSessionId(oracles, authorization, now)
    case Failure(e) => Revocation(store, CaughtReply(e))
    case Success(id) =>
      if !writeOk then Revocation(store, Failed(500, Thrown))
      else
        var updated := FindByIdAndUpdate(store, id, RevokeAt(now));
        if updated.original.None? then Revocation(updated.store, Failed(400, Text(InvalidSession)))
        else Revocation(updated.store, Done)
  }

  /** Revoking twice: the first call succeeds, the second finds nothing visible,
      answers "Invalid session" and leaves the store exactly as the first left it. */
  lemma DeactivateTwice(oracles: Oracles, store: Store, authorization: Option<string>, now: int, later: int)
    requires GetSessionId(oracles, authorization, later) == GetSessionId(oracles, authorization, now)
    requires DeactivateSession(oracles, store, authorization, now, true).reply == Done
    ensures var first := DeactivateSession(oracles, store, authorization, now, true);
      DeactivateSession(oracles, first.store, authorization, later, true) == Revocation(first.store, Failed(400, Text(InvalidSession)))
  {
  }
}

=== FILE: session_model.dfy ===
/** The `Session` collection (models/sessionModel.js): record shape, schema defaults,
    and the `pre(/^find/)` hook that hides revoked records from every find-family query. */
module SessionModel {
  import opened Common

  /** 90 days in milliseconds: the offset of the default `expiredAt`. */
  const NinetyDaysMs: int := 7776000000

  datatype Session = Session(userId: UserId, createdAt: int, expiredAt: int, active: bool)

  /** The collection: the record whose `_id` is `i` sits at position `i`. */
  type Store = seq<Session>

  /** The date defaults of the schema (`active` defaults to `true`). Each `default:` holds a value, not a function, so
      `Date.now()` is read once, when the schema is defined, and every insert of the
      process shares the same `createdAt` and `expiredAt`. */
  datatype Schema = Schema(defaultCreatedAt: int, defaultExpiredAt: int)

  /** The schema as defined at module load, from the two clock readings taken while
      the object literal is evaluated. */
  function DefineSchema(clockAtCreatedAt: int, clockAtExpiredAt: int): Schema
  {
    Schema(clockAtCreatedAt, clockAtExpiredAt + NinetyDaysMs)
  }

  /** The document handed to `Session.create`; absent fields take the schema default. */
  datatype SessionDoc = SessionDoc(userId: UserId, createdAt: Option<int>, expiredAt: Option<int>, active: Option<bool>)

  function OrDefault<T>(supplied: Option<T>, default: T): T
  {
    if supplied.Some? then supplied.value else default
  }

  /** The record the schema builds from a document. */
  function Materialize(schema: Schema, doc: SessionDoc): Session
  {
    Session(doc.userId,
            OrDefault(doc.createdAt, schema.defaultCreatedAt),
            OrDefault(doc.expiredAt, schema.defaultExpiredAt),
            OrDefault(doc.active, true))
  }

  /** `Session.create({ userId })`: only the owner is supplied. */
  function NewSession(schema: Schema, userId: UserId): Session
  {
    Materialize(schema, SessionDoc(userId, None, None, None))
  }

  /** A record is active unless `false` was supplied; absent dates are the clock
      readings of schema definition, whatever the time of the insert. */
  lemma DefaultsFillMissingFields(clockAtCreatedAt: int, clockAtExpiredAt: int, doc: SessionDoc)
    ensures var s := Materialize(DefineSchema(clockAtCreatedAt, clockAtExpiredAt), doc);
      && s.userId == doc.userId
      && (s.active <==> doc.active != Some(false))
      && s.createdAt == (if doc.createdAt.Some? then doc.createdAt.value else clockAtCreatedAt)
      && s.expiredAt == (if doc.expiredAt.Some? then doc.expiredAt.value else clockAtExpiredAt + NinetyDaysMs)
  {
  }

  /** The condition `{ active: { $ne: false } }` the hook adds to every find-family query. */
  predicate Visible(s: Session)
  {
    s.active
  }

  /** The ids from `from` on of the visible records that satisfy `filter`, in insertion order,
      the model's choice for MongoDB's unspecified natural order. Every find-family query below is built on this one, as every one passes the hook. */
  function FindFrom(store: Store, filter: (SessionId, Session) -> bool, from: nat): (ids: seq<SessionId>)
    requires from <= |store|
    ensures forall k :: 0 <= k < |ids| ==>
      from <= ids[k] < |store| && Visible(store[ids[k]]) && filter(ids[k], store[ids[k]])
    ensures forall i :: from <= i < |store| && Visible(store[i]) && filter(i, store[i]) ==> i in ids
    ensures forall j, k :: 0 <= j < k < |ids| ==> ids[j] < ids[k]
    decreases |store| - from
  {
    if from == |store| then []
    else if Visible(store[from]) && filter(from, store[from]) then [from] + FindFrom(store, filter, from + 1)
    else FindFrom(store, filter, from + 1)
  }

  /** `Session.find(filter)`. */
  function Find(store: Store, filter: (SessionId, Session) -> bool): (ids: seq<SessionId>)
    ensures forall k :: 0 <= k < |ids| ==> ids[k] < |store| && Visible(store[ids[k]]) && filter(ids[k], store[ids[k]])
    ensures forall i :: 0 <= i < |store| && Visible(store[i]) && filter(i, store[i]) ==> i in ids
    ensures forall j, k :: 0 <= j < k < |ids| ==> ids[j] < ids[k]
  {
    FindFrom(store, filter, 0)
  }

  /** `Session.findOne(filter)`: the first visible match in insertion order (the model's
      choice for natural order). */
  function FindOne(store: Store, filter: (SessionId, Session) -> bool): (r: Option<SessionId>)
    ensures r.Some? ==> r.value < |store| && Visible(store[r.value]) && filter(r.value, store[r.value])
    ensures r.Some? ==> forall i :: 0 <= i < r.value && Visible(store[i]) ==> !filter(i, store[i])
    ensures r.None? ==> forall i :: 0 <= i < |store| && Visible(store[i]) ==> !filter(i, store[i])
  {
    var ids := Find(store, filter);
    if |ids| == 0 then None else Some(ids[0])
  }

  /** `Session.findById(id)`: the record, provided it is visible. */
  function FindById(store: Store, id: SessionId): (r: Option<Session>)
    ensures r.Some? <==> id < |store| && Visible(store[id])
    ensures r.Some? ==> r.value == store[id]
  {
    match FindOne(store, (i: SessionId, s: Session) => i == id)
    case None => None
    case Some(i) => Some(store[i])
  }

  /** The fields an update document sets. */
  datatype SessionUpdate = SessionUpdate(expiredAt: Option<int>, active: Option<bool>)

  function ApplyUpdate(s: Session, update: SessionUpdate): Session
  {
    s.(expiredAt := OrDefault(update.expiredAt, s.expiredAt), active := OrDefault(update.active, s.active))
  }

  datatype Updated = Updated(store: Store, original: Option<Session>)

  /** `Session.findByIdAndUpdate(id, update)`: updates the record if the hook lets the
      query see it, and returns the document as it was before the update. */
  function FindByIdAndUpdate(store: Store, id: SessionId, update: SessionUpdate): (r: Updated)
    ensures r.original.Some? <==> id < |store| && Visible(store[id])
    ensures r.original.Some? ==> r.original.value == store[id] && r.store == store[id := ApplyUpdate(store[id], update)]
    ensures |r.store| == |store|
    ensures forall i :: 0 <= i < |store| && (i != id || !Visible(store[i])) ==> r.store[i] == store[i]
  {
    match FindById(store, id)
    case None => Updated(store, None)
    case Some(s) => Updated(store[id := ApplyUpdate(s, update)], Some(s))
  }

  /** No find-family query ever yields a revoked record, whatever its filter or update. */
  lemma RevokedIsHiddenFromEveryFind(store: Store, id: SessionId)
    requires id < |store| && !store[id].active
    ensures forall filter :: id !in Find(store, filter) && FindOne(store, filter) != Some(id)
    ensures FindById(store, id) == None
    ensures forall update :: FindByIdAndUpdate(store, id, update) == Updated(store, None)
  {
  }

  /** How a record may change from one moment to a later one: not at all, or by
      revocation, which keeps its owner and creation date. */
  predicate Successor(before: Session, after: Session)
  {
    after == before || (before.active && !after.active && after.userId == before.userId && after.createdAt == before.createdAt)
  }

  /** How the collection may change: it only grows, and existing records only move
      to a successor. */
  predicate Evolves(before: Store, after: Store)
  {
    && |before| <= |after|
    && forall i :: 0 <= i < |before| ==> Successor(before[i], after[i])
  }

  /** A revoked record is final: any successor of it is the record itself. */
  lemma RevokedIsFinal(before: Session, after: Session)
    requires !before.active && Successor(before, after)
    ensures after == before
  {
  }

  lemma {:induction false} EvolvesTransitive(a: Store, b: Store, c: Store)
    requires Evolves(a, b) && Evolves(b, c)
    ensures Evolves(a, c)
  {
    forall i | 0 <= i < |a|
      ensures Successor(a[i], c[i])
    {
      assert Successor(a[i], b[i]) && Successor(b[i], c[i]);
    }
  }
}

=== FILE: user_model.dfy ===
/** The fields of the `User` collection the handlers read and write, and the three
    queries they issue against it. models/userModel.js is not part of this model:
    its schema, validators and hooks appear only through `Collaborators.Oracles`. */
module UserModel {
  import opened Common

  /** The stored fields. What a save writes into `password` and `passwordChangedAt`
      is decided by the uninterpreted pre-save hook (`Collaborators.Oracles.saveHook`). */
  datatype User = User(
    name: string,
    email: string,
    password: string,
    passwordChangedAt: Option<int>,
    passwordResetToken: Option<string>,
    passwordResetExpires: Option<int>)

  /** The collection: the user whose `_id` is `i` sits at position `i`. */
  type Users = seq<User>

  /** The first position from `from` on whose user satisfies `filter`. */
  function FirstFrom(users: Users, filter: (UserId, User) -> bool, from: nat): (r: Option<UserId>)
    requires from <= |users|
    ensures r.Some? ==> from <= r.value < |users| && filter(r.value, users[r.value])
    ensures r.Some? ==> forall i :: from <= i < r.value ==> !filter(i, users[i])
    ensures r.None? ==> forall i :: from <= i < |users| ==> !filter(i, users[i])
    decreases |users| - from
  {
    if from == |users| then None
    else if filter(from, users[from]) then Some(from)
    else FirstFrom(users, filter, from + 1)
  }

  /** `User.findOne(filter)`: the first match in the model's choice of order, insertion
      order; MongoDB leaves an unsorted `findOne` to natural order, which it does not fix. */
  function FindOne(users: Users, filter: (UserId, User) -> bool): (r: Option<UserId>)
    ensures r.Some? ==> r.value < |users| && filter(r.value, users[r.value])
    ensures r.Some? ==> forall i :: 0 <= i < r.value ==> !filter(i, users[i])
    ensures r.None? ==> forall i :: 0 <= i < |users| ==> !filter(i, users[i])
  {
    FirstFrom(users, filter, 0)
  }

  /** `User.findOne({ email })`. */
  function FindByEmail(users: Users, email: string): (r: Option<UserId>)
    ensures r.Some? ==> r.value < |users| && users[r.value].email == email
    ensures r.Some? ==> forall i :: 0 <= i < r.value ==> users[i].email != email
    ensures r.None? ==> forall i :: 0 <= i < |users| ==> users[i].email != email
  {
    FindOne(users, (i: UserId, u: User) => u.email == email)
  }

  /** The reset-token query's filter: `{ passwordResetToken: hash,
      passwordResetExpires: { $gt: now } }`; a missing field matches neither. */
  predicate ResetMatches(u: User, hash: string, now: int)
  {
    u.passwordResetToken == Some(hash) && u.passwordResetExpires.Some? && u.passwordResetExpires.value > now
  }

  /** `User.findOne({ passwordResetToken: hash, passwordResetExpires: { $gt: now } })`. */
  function FindByResetToken(users: Users, hash: string, now: int): (r: Option<UserId>)
    ensures r.Some? ==> r.value < |users| && ResetMatches(users[r.value], hash, now)
    ensures r.Some? ==> forall i :: 0 <= i < r.value ==> !ResetMatches(users[i], hash, now)
    ensures r.None? ==> forall i :: 0 <= i < |users| ==> !ResetMatches(users[i], hash, now)
  {
    FindOne(users, (i: UserId, u: User) => ResetMatches(u, hash, now))
  }

  /** A reset token is accepted only strictly before its expiry: at the expiry instant
      and later it matches nothing. */
  lemma ResetExpiryIsStrict(u: User, hash: string, now: int)
    requires u.passwordResetExpires.Some? && now >= u.passwordResetExpires.value
    ensures !ResetMatches(u, hash, now)
  {
  }

  /** A user whose reset fields were cleared matches no reset token at any time. */
  lemma ClearedResetMatchesNothing(u: User, hash: string, now: int)
    requires u.passwordResetToken.None?
    ensures !ResetMatches(u, hash, now)
  {
  }
}
